=== FILE: README.md ===
# gta3sc program context — a Dafny model

This project models the shared state of a gta3sc compilation run, as
declared in `src/program.hpp`. gta3sc compiles GTA3script.
The model covers three parts:

- **Options**: the compiler's flags and limits, the preprocessor symbol
  table (`define`, `undefine`, `is_defined`), and `get_header`, which maps
  a header version to a target game.
- **`format_error`**: builds the text of one diagnostic. The text is the
  location (`file:line:col:`), a severity tag and the message. When the
  source text is available, it also has a two-line excerpt with a caret
  under the column. There are four front ends: no context, a script, a
  token span, and a syntax-tree node.
- **`ProgramContext`**: the reporting operations. These are `error`,
  `note`, `warning`, `fatal_error`, `register_errors`, `has_error`, both
  `supported_or_fatal` lookups, and `setup_models`.

Files:

- `base.dfy` (`Base`): the `Option` type, the fixed-width integer types,
  and the `uint32_t` narrowing.
- `text.dfy` (`Text`): strings. Blank padding, right alignment, search and
  splitting on a separator.
- `decimal.dfy` (`Decimal`): `std::to_string` for naturals and its inverse.
- `options.dfy` (`CompilerOptions`): `Options`.
- `diagnostics.dfy` (`Diagnostics`): the five `format_error` overloads.
- `reader.dfy` (`DiagnosticReader`): a reader for diagnostics. It splits a
  diagnostic into lines and reads back the file, line, column, text and
  excerpt. It is the formatter's partner: the round-trip lemmas show that
  reading inverts `format_error` whenever the pieces contain no newline and
  the file name no colon.
- `program_context.dfy` (`Reporting`): `ProgramContext` as a pure state
  machine.
  - Each report returns a new state.
  - Each diagnostic is one entry of `stderr`, the formatted text plus a
    newline, just as `puts` writes it.
  - A fatal error yields `Halt`, which models `HaltJobException`, instead
    of returning.
  - A `Report` sequence with `Replay` models any order in which reports
    arrive, fatal ones included: a fatal report halts only the job that
    made it, and the other jobs sharing the context keep reporting.

Three behaviours of the code are easy to misread:

- `define` inserts with `emplace`, so defining a symbol that is already
  defined keeps the first value.
- A syntax node without text and without a child that has text stays the
  context of its own diagnostic. The internal error appears only when the
  chosen node's token stream has expired.
- `Options` declares the `Lang` enumeration but has no field of that type.
  The model has the enumeration only.

## Model

| member | source | states |
|---|---|---|
| Base.ToU32 | src/program.hpp:178-180 | Narrowing a `size_t` line or column to `uint32_t` gives the value modulo 2^32: a value that differs from the input by a multiple of 2^32, never larger than it, and the input itself when it is below 2^32. |
| Text.AlignRight | src/program.hpp:150 | The `{:>{}}` field: its width is the larger of the requested width and the text's length. It ends with the text, and everything before the text is blank. |
| Decimal.ToString | src/program.hpp:125 | `std::to_string` of a count is non-empty and all digits. It has no leading zero unless the value is 0. |
| Decimal.ParseToString | src/program.hpp:125 | Reading the decimal digits back gives the original number. |
| Decimal.ToStringInjective | src/program.hpp:125 | Different numbers give different digit strings. |
| Diagnostics.FileTag | src/program.hpp:113-121 | The location starts with the file name and a colon. Without a file name it starts with `gta3sc:`. |
| Diagnostics.FormatError | src/program.hpp:104-154 | The diagnostic starts with the file tag, and one blank follows the location. With a stream and a known line the text ends with the caret. Otherwise it ends with the message. |
| Diagnostics.Unlocated | src/program.hpp:113-146 | With line 0 there is no number and no excerpt, whatever the column and stream. The text is `name: `, the severity tag and the message. |
| DiagnosticReader.ReadFormatError | src/program.hpp:104-154 | The reader gets back the file name or `gta3sc` and the line. It gets the column only when the line is known (a column without a line is dropped). A line or column of 0 is never written, so every number the reader finds is positive. It gets the severity-tagged message. Exactly when the stream is given and the line is known, it gets the excerpt: the source line, with the caret after `col` characters (at least 1). |
| Diagnostics.FormatNoContext | src/program.hpp:156-160 | A report without context is `gta3sc: `, the severity tag and the message. |
| Diagnostics.FormatScript | src/program.hpp:162-166 | A report about a script is located at the script's path only, with no line and no excerpt. |
| DiagnosticReader.ReadFormatScript | src/program.hpp:162-166 | A script diagnostic reads back as the path, with line 0, column 0 and no excerpt. |
| Diagnostics.FormatToken | src/program.hpp:168-183 | The diagnostic always opens with the stream name and a colon. An empty span names only the stream. A non-empty span whose first offset has a known line ends with the caret of the excerpt. |
| DiagnosticReader.ReadFormatToken | src/program.hpp:168-183 | A token diagnostic reads back as the stream name. An empty span gives no line. A non-empty span gives the line and column of its first offset (narrowed to 32 bits), and an excerpt of that line when the line is known. |
| Diagnostics.FirstWithText | src/program.hpp:192-194 | `find_if` finds the first child that has text. Every child before it has none. None means no child has text. |
| Diagnostics.ContextChoice | src/program.hpp:188-196 | A node with text is its own context. Otherwise the first child with text is. When no child has text, the node itself is kept. |
| Diagnostics.InternalError | src/program.hpp:198-201 | The expired-stream diagnostic is the fixed internal error, with no location. |
| Diagnostics.FormatNode | src/program.hpp:185-207 | When the chosen node's stream has expired, the result is the internal error whatever the severity and message. When the stream is live, the diagnostic opens with that stream's name, and an empty token names the stream only. |
| DiagnosticReader.ReadFormatNodeLive | src/program.hpp:202-206 | While the chosen node's stream is live, the diagnostic reads back as the token diagnostic of that node's token in that stream: the stream name, the line and column of the token's first offset, and the excerpt of that line when the line is known. |
| Diagnostics.Format | src/program.hpp:156-207 | The overload chosen by the kind of context: `gta3sc: ` for no context, the script path for a script, the stream name for a token span, and for a syntax node either the internal error or the name of the chosen node's stream. |
| DiagnosticReader.ReadFormatNodeExpired | src/program.hpp:198-201 | A node diagnostic whose stream has expired reads back as `gta3sc` with no location. Its text is `internal_error: ` and the fixed message. |
| CompilerOptions.Defaults | src/program.hpp:31-66 | The default flags: only `entity_tracking` and `script_name_check` are on. The header is `None`, there is no CLEO version, the numeric limits are 0 or absent, and no symbol is defined. |
| CompilerOptions.Define | src/program.hpp:84-87 | After `define` the symbol is defined. A symbol already defined keeps its old value; a new one gets the given value, by default "1". Every other symbol and every flag is unchanged. |
| CompilerOptions.Undefine | src/program.hpp:89-98 | After `undefine` the symbol is not defined. Undefining a missing symbol changes nothing. Every other symbol and every flag is unchanged. |
| CompilerOptions.DefineKeepsFirstValue | src/program.hpp:84-87 | Defining a symbol twice is the same as defining it once with the first value. |
| CompilerOptions.DefineCommutes | src/program.hpp:84-87 | Definitions of two different symbols can be done in either order. |
| CompilerOptions.UndefineAfterDefine | src/program.hpp:84-93 | `undefine` right after `define` is the same as `undefine` alone. |
| CompilerOptions.DefineAfterUndefine | src/program.hpp:84-93 | `define` right after `undefine` installs the new value. |
| CompilerOptions.IsDefinedAfterRequests | src/program.hpp:95-98 | After any series of `define` and `undefine` requests, `is_defined` holds for a symbol exactly when the latest request naming it was a `define`. When no request names it, `is_defined` is what it was before the series. |
| CompilerOptions.GetHeader | src/program.hpp:71-82 | The target constant returned is the one that stands for the configured header. Callers must not ask when the header is `None`. |
| CompilerOptions.HeaderOf | src/program.hpp:77-79 | Every target constant stands for a concrete header version, never `None`. |
| CompilerOptions.GetHeaderRoundTrip | src/program.hpp:71-82 | `get_header` is a bijection between the three concrete header versions and the three target constants. |
| Reporting.Puts | src/program.hpp:294-297 | Appends exactly one line, the text followed by a newline. Earlier output, the counters and the setup are untouched. |
| Reporting.Init | src/program.hpp:216-219 | A new context holds the given options and commands. All three counters are 0, both model tables are empty, nothing is written, and `has_error` is false. |
| Reporting.SetupModels | src/program.hpp:224-229 | Replaces both model tables. The options, commands, counters and output are left unchanged. |
| Reporting.Error | src/program.hpp:238-248 | One more error and one write of the `error` diagnostic. The other counters and the setup are unchanged, and `has_error` becomes true. |
| Reporting.Note | src/program.hpp:250-254 | One write of the `note` diagnostic. No counter moves and `has_error` is unchanged. |
| Reporting.Warning | src/program.hpp:256-261 | One more warning and one write of the `warning` diagnostic. The error counters are unchanged, so `has_error` is unchanged. |
| Reporting.FatalError | src/program.hpp:263-269 | One more fatal error and one write of the `fatal error` diagnostic. The job always halts, and `has_error` is true. |
| Reporting.RegisterErrors | src/program.hpp:271-275 | Adds `n` errors without writing anything. With `n` = 0 nothing changes. With `n` > 0, `has_error` becomes true. An error already on record stays on record. |
| Reporting.SupportedOrFatal | src/program.hpp:277-283 | The lookup continues with the command exactly when it was found and is supported, and the state is untouched. Otherwise it halts after one fatal error that names the command. Options, commands and model tables are unchanged either way. |
| Reporting.SupportedOrFatalAlternator | src/program.hpp:285-291 | The lookup continues with the alternator exactly when it was found. Otherwise it halts after one fatal error that names it. Options, commands and model tables are unchanged either way. |
| Reporting.ReplayCounts | src/program.hpp:238-275 | After any sequence of reports, fatal ones included, each counter has grown by exactly the errors (including registered ones), warnings and fatal errors reported. There is one write per diagnostic, and the setup is unchanged. |
| Reporting.ReplayKeepsError | src/program.hpp:233-236 | After a sequence of reports, `has_error` holds exactly when it held before or the sequence reported an error or a fatal error, or registered an error. |
| Reporting.HasErrorFromStart | src/program.hpp:233-236 | From a fresh context, `has_error` holds after any sequence of reports exactly when an error or a fatal error was reported or an error was registered. Notes and warnings alone never set it. |
| Reporting.RegisterErrors32 | src/program.hpp:271-275 | `register_errors` on the 32-bit atomic counter: it adds `n`, and subtracts 2^32 when the sum reaches 2^32. |
| Reporting.RegisterErrors32Clears | src/program.hpp:271-275 | With no fatal error on record, registering errors clears `has_error` exactly when the counter wraps to 0. |
| Reporting.RegisterErrors32Counterexample | src/program.hpp:300 | With 1 error on record, registering 4294967295 more makes `has_error` false. |

## Left out

- Field widths of 2^31 or more: the caret line is formatted with `{:>{}}`, and the formatting library refuses a width above `INT_MAX`. Its error is thrown out of `format_error`, after `error`, `warning` or `fatal_error` has already bumped its counter. A column that large can come from the token overload, which narrows `size_t` to `uint32_t`. The model pads with that many blanks instead.
- I/O: `puts` writes the text and a newline to standard error. The model appends that text to `stderr`. The C-string NUL handling of `%s` is not modelled: a message with an embedded NUL would be cut short.
- Message interpolation (`fmt::format` with the variadic arguments): the message is taken as already interpolated.
- The bodies of `TextStream::get_line` and `linecol_from_offset`: they are abstract functions, fields of `TextStream`. `Token` holds only the span that `get_token` returns.
- `Script::path.generic_u8string()`: the path is already a string in its generic form.
- Concurrency: the counters are `std::atomic` and jobs report in parallel. Each report has two separate steps: the increment, then the write. Another job can see a counter bumped before the line is written, and two jobs' increments and writes can interleave. The model has no such intermediate states. It performs each report as one step. Its final counters and writes equal those of the order in which the writes happened, because the formatted text never reads the counters.
- Reporting.Error, Reporting.Warning, Reporting.FatalError: the counters are unbounded naturals. The source's 32-bit atomics wrap only after 2^32 reports. The wrap is exhibited for `register_errors` under Findings.
- The commented-out "too many errors" limit in `error`: it is not active code.
- `is_model_from_ide`, `load_ide` and `load_dat`: they are declared here but defined elsewhere, and that code is not part of this model. The case-insensitive ordering `iless` of the model tables is not modelled either: the tables are plain maps from name to model id.
- The `Commands` catalog and `Command` lookup: they live in `commands.hpp`, which is not part of this model. A command is only its name and `supported` flag, and an alternator is its command and index.
- `CompilerOptions.GetHeader`: it is generic over `TEnum` in the source. The model uses one enumeration of the three targets (`Liberty`, `Miami`, `SanAndreas`), the names both header enumerations share.
- The deleted copy and move constructors of `ProgramContext`: they have no behaviour to model.
- DiagnosticReader.ReadFormatError, DiagnosticReader.ReadFormatToken, DiagnosticReader.ReadFormatScript, DiagnosticReader.ReadFormatNodeLive: the round trips assume the file name has no colon and no piece has a newline. Without that, a reader cannot tell the separators apart.

## Findings

| source | as written | input that shows it | evidently intended | confidence | as-written member | corrected member |
|---|---|---|---|---|---|---|
| src/program.hpp:271-275 | `error_count += n` on a `std::atomic<uint32_t>` wraps modulo 2^32, so `has_error()` can turn false again after errors were recorded | error_count = 1, fatal_count = 0, then `register_errors(4294967295)`: error_count becomes 0 and `has_error()` returns false | once an error is on record, `has_error()` stays true | low: needs 2^32 errors in one run; not executed | Reporting.RegisterErrors32Counterexample | Reporting.RegisterErrors |

=== FILE: base.dfy ===
/** Shared vocabulary of the model: an optional value and the fixed-width
    integer ranges that the compiler's records use. */
module Base {

  /** `optional<T>` of the source, and also a nullable `const char*`. */
  datatype Option<+T> = None | Some(value: T)

  const U32_LIMIT: nat := 0x1_0000_0000

  /** `uint8_t`, `uint32_t` and `int32_t`. */
  type U8 = n: nat | n < 0x100
  type U32 = n: nat | n < 0x1_0000_0000
  type I32 = i: int | -0x8000_0000 <= i < 0x8000_0000

  /** The implicit conversion of an unsigned `size_t` to `uint32_t`:
      reduction modulo 2^32, which keeps every value that already fits. */
  function ToU32(n: nat): (r: U32)
    ensures n < U32_LIMIT ==> r == n
    ensures r <= n
    ensures (n - r) % U32_LIMIT == 0
  {
    n % U32_LIMIT
  }
}

=== FILE: decimal.dfy ===
/** `std::to_string` on unsigned integers, and the decimal reading that
    undoes it. */
module Decimal {
  import opened Text

  function DigitChar(d: nat): (c: char)
    requires d < 10
    ensures IsDigit(c)
    ensures DigitValue(c) == d
  {
    ('0' as int + d) as char
  }

  function DigitValue(c: char): (d: nat)
    requires IsDigit(c)
    ensures d < 10
  {
    c as int - '0' as int
  }

  /** Shortest decimal spelling of `n`: digits only, never empty, and no
      leading zero except for `0` itself. */
  function ToString(n: nat): (s: string)
    ensures |s| >= 1
    ensures AllDigits(s)
    ensures s[0] == '0' ==> n == 0
  {
    if n < 10 then [DigitChar(n)]
    else ToString(n / 10) + [DigitChar(n % 10)]
  }

  /** Value of a string of decimal digits (most significant first). */
  function Parse(s: string): nat
    requires AllDigits(s)
  {
    if |s| == 0 then 0
    else 10 * Parse(s[..|s| - 1]) + DigitValue(s[|s| - 1])
  }

  /** Reading back the decimal spelling gives the number. */
  lemma {:induction false} ParseToString(n: nat)
    ensures Parse(ToString(n)) == n
  {
    if n >= 10 {
      var s := ToString(n);
      assert s[..|s| - 1] == ToString(n / 10);
      ParseToString(n / 10);
    }
  }

  /** Distinct numbers are spelt differently. */
  lemma ToStringInjective(a: nat, b: nat)
    ensures ToString(a) == ToString(b) ==> a == b
  {
    ParseToString(a);
    ParseToString(b);
  }
}

=== FILE: diagnostics.dfy ===
/** `format_error`: the text of one diagnostic, built from a location, a
    severity tag, the (already interpolated) message and, when the source
    text is at hand, an excerpt of the offending line with a caret under
    the column. Four front ends reduce a context to the arguments of the
    base formatter. */
module Diagnostics {
  import opened Base
  import opened Text
  import Decimal

  /** Line and column of an offset, both 1-based; 0 stands for unknown. */
  datatype LineCol = LineCol(line: nat, col: nat)

  /** `TokenStream::TextStream`, seen only through its name and the two
      queries the formatter makes; their implementations are not part of
      this model. */
  datatype TextStream = TextStream(
    streamName: string,
    getLine: nat -> string,
    lineColFromOffset: nat -> LineCol)

  /** `TokenStream::TokenInfo`: a half-open span of offsets in a stream. */
  datatype TokenInfo = TokenInfo(stream: TextStream, begin: nat, end: nat)

  /** The span of a syntax node's token (`get_token`). */
  datatype Token = Token(begin: nat, end: nat)

  /** A syntax node as the formatter sees it: whether it carries text, its
      token, its children in order, and its weak reference to the token
      stream (`None` once the stream has expired). */
  datatype SyntaxTree = SyntaxTree(
    hasText: bool,
    token: Token,
    tokenStream: Option<TextStream>,
    children: seq<SyntaxTree>)

  /** A translation unit; only its path takes part in a diagnostic. */
  datatype Script = Script(path: string)

  /** The four kinds of context a report may be about. */
  datatype Context =
    | NoContext
    | ScriptContext(script: Script)
    | TokenContext(info: TokenInfo)
    | NodeContext(node: SyntaxTree)

  /** The program's own tag, used when no file name is known. */
  const ProgramTag: string := "gta3sc"

  const InternalErrorType: string := "internal_error"
  const InternalErrorMessage: string :=
    "context->" + "token_stream() " + "== nullptr " + "during " + "format_error"

  /** The file part of the location: the file name or the program tag,
      then a colon. */
  function FileTag(filename: Option<string>): (r: string)
    ensures |r| >= 1 && r[|r| - 1] == ':'
    ensures filename.Some? ==> r == filename.value + ":"
    ensures filename.None? ==> r == "gta3sc:"
  {
    (if filename.Some? then filename.value else ProgramTag) + ":"
  }

  /** The location prefix: file, then the line when known, then the column
      when both are known. */
  function Location(filename: Option<string>, line: U32, col: U32): (r: string)
  {
    FileTag(filename)
      + (if line != 0 then Decimal.ToString(line) + ":" else "")
      + (if line != 0 && col != 0 then Decimal.ToString(col) + ":" else "")
  }

  /** `type + ": "` when a severity is given, else nothing. */
  function SeverityTag(ty: Option<string>): string {
    if ty.Some? then ty.value + ": " else ""
  }

  /** Whether the base formatter appends the source excerpt. */
  predicate HasExcerpt(stream: Option<TextStream>, line: U32) {
    stream.Some? && line != 0
  }

  /** The two excerpt lines: the source line, then the caret right-aligned
      in a field as wide as the column; both indented by one blank. */
  function Excerpt(stream: Option<TextStream>, line: U32, col: U32): string {
    if HasExcerpt(stream, line)
    then "\n " + stream.value.getLine(line) + "\n " + AlignRight("^", col)
    else ""
  }

  lemma LocationStartsWithTag(filename: Option<string>, line: U32, col: U32)
    ensures |FileTag(filename)| <= |Location(filename, line, col)|
    ensures Location(filename, line, col)[..|FileTag(filename)|] == FileTag(filename)
  {
    var tag := FileTag(filename);
    var rest := (if line != 0 then Decimal.ToString(line) + ":" else "")
                + (if line != 0 && col != 0 then Decimal.ToString(col) + ":" else "");
    assert Location(filename, line, col) == tag + rest;
  }

  lemma ExcerptEndsWithCaret(stream: Option<TextStream>, line: U32, col: U32)
    ensures HasExcerpt(stream, line) ==> |Excerpt(stream, line, col)| > 0
    ensures HasExcerpt(stream, line) ==> Excerpt(stream, line, col)[|Excerpt(stream, line, col)| - 1] == '^'
    ensures !HasExcerpt(stream, line) ==> Excerpt(stream, line, col) == ""
  {
    if HasExcerpt(stream, line) {
      var a := AlignRight("^", col);
      assert a[|a| - 1..] == "^";
      var e := "\n " + stream.value.getLine(line) + "\n ";
      assert Excerpt(stream, line, col) == e + a;
    }
  }

  /** Where the parts of a first line sit in the text built from them. */
  lemma LineShape(prefix: string, k: nat, sev: string, msg: string, ex: string)
    requires k <= |prefix|
    ensures var r := prefix + " " + sev + msg + ex;
            && |prefix| < |r| && r[|prefix|] == ' '
            && r[..k] == prefix[..k]
            && (ex == "" ==> |msg| <= |r| && r[|r| - |msg|..] == msg)
            && (|ex| > 0 ==> r[|r| - 1] == ex[|ex| - 1])
  {
    var r := prefix + " " + sev + msg + ex;
    assert r == prefix + ([' '] + sev + msg + ex);
    if ex == "" {
      assert r == (prefix + " " + sev) + msg;
    }
  }

  /** The base `format_error` overload. */
  function FormatError(ty: Option<string>, stream: Option<TextStream>,
                       filename: Option<string>, line: U32, col: U32,
                       msg: string): (r: string)
    ensures |FileTag(filename)| < |r|
    ensures r[..|FileTag(filename)|] == FileTag(filename)
    ensures |Location(filename, line, col)| < |r| && r[|Location(filename, line, col)|] == ' '
    ensures HasExcerpt(stream, line) ==> r[|r| - 1] == '^'
    ensures !HasExcerpt(stream, line) ==> |msg| <= |r| && r[|r| - |msg|..] == msg
  {
    var prefix := Location(filename, line, col);
    var spaced := if |prefix| > 0 then prefix + " " else prefix;
    LocationStartsWithTag(filename, line, col);
    ExcerptEndsWithCaret(stream, line, col);
    LineShape(prefix, |FileTag(filename)|, SeverityTag(ty), msg, Excerpt(stream, line, col));
    spaced + SeverityTag(ty) + msg + Excerpt(stream, line, col)
  }

  /** The diagnostic `r` opens with the file name `name` and a colon. */
  predicate LocatedIn(r: string, name: string) {
    |name| < |r| && r[..|name| + 1] == name + ":"
  }

  /** Without a line there is neither a number nor an excerpt: the text
      is the file tag, one blank, the severity tag and the message. */
  lemma Unlocated(ty: Option<string>, stream: Option<TextStream>, filename: Option<string>,
                  col: U32, msg: string)
    ensures FormatError(ty, stream, filename, 0, col, msg)
            == (if filename.Some? then filename.value else ProgramTag) + ": " + SeverityTag(ty) + msg
  {
    var name := if filename.Some? then filename.value else ProgramTag;
    assert Location(filename, 0, col) == name + ":";
    assert Excerpt(stream, 0, col) == "";
    assert name + ":" + " " + SeverityTag(ty) + msg + "" == name + ": " + SeverityTag(ty) + msg;
  }

  /** `format_error(type, nocontext, msg)`. */
  function FormatNoContext(ty: Option<string>, msg: string): (r: string)
    ensures r == "gta3sc: " + SeverityTag(ty) + msg
  {
    Unlocated(ty, None, None, 0, msg);
    FormatError(ty, None, None, 0, 0, msg)
  }

  /** `format_error(type, script, msg)`: the script's path is the file name. */
  function FormatScript(ty: Option<string>, script: Script, msg: string): (r: string)
    ensures r == script.path + ": " + SeverityTag(ty) + msg
  {
    Unlocated(ty, None, Some(script.path), 0, msg);
    FormatError(ty, None, Some(script.path), 0, 0, msg)
  }

  /** The line and column the token front end passes on: the stream's
      answer for the span's first offset, narrowed to `uint32_t`. */
  function SpanLine(info: TokenInfo): U32 {
    ToU32(info.stream.lineColFromOffset(info.begin).line)
  }

  function SpanCol(info: TokenInfo): U32 {
    ToU32(info.stream.lineColFromOffset(info.begin).col)
  }

  /** `format_error(type, token_info, msg)`: an empty span names only the
      stream; a non-empty one is located at its first offset and carries
      the stream, so that a known line brings an excerpt. */
  function FormatToken(ty: Option<string>, info: TokenInfo, msg: string): (r: string)
    ensures LocatedIn(r, info.stream.streamName)
    ensures info.begin == info.end ==> r == info.stream.streamName + ": " + SeverityTag(ty) + msg
    ensures info.begin != info.end && SpanLine(info) != 0 ==> r[|r| - 1] == '^'
  {
    if info.begin == info.end then
      Unlocated(ty, None, Some(info.stream.streamName), 0, msg);
      FormatError(ty, None, Some(info.stream.streamName), 0, 0, msg)
    else
      FormatError(ty, Some(info.stream), Some(info.stream.streamName),
                  SpanLine(info), SpanCol(info), msg)
  }

  /** Index of the first node in `children` that carries text. */
  function FirstWithText(children: seq<SyntaxTree>): (r: Option<nat>)
    ensures r.Some? ==> r.value < |children| && children[r.value].hasText
    ensures r.Some? ==> forall j :: 0 <= j < r.value ==> !children[j].hasText
    ensures r.None? ==> forall j :: 0 <= j < |children| ==> !children[j].hasText
  {
    if |children| == 0 then None
    else if children[0].hasText then Some(0)
    else match FirstWithText(children[1..])
      case None => None
      case Some(i) => Some(i + 1)
  }

  /** Which node a syntax-tree diagnostic is about: `None` for the node
      itself, `Some(i)` for its child `i`. A node with text is its own
      context; otherwise its first child with text is; when no child has
      text, the node is kept. */
  function ContextChoice(node: SyntaxTree): (k: Option<nat>)
    ensures node.hasText ==> k.None?
    ensures k.Some? ==> k.value < |node.children| && node.children[k.value].hasText
    ensures k.Some? ==> forall j :: 0 <= j < k.value ==> !node.children[j].hasText
    ensures !node.hasText && k.None? ==> forall j :: 0 <= j < |node.children| ==> !node.children[j].hasText
  {
    if node.hasText then None else FirstWithText(node.children)
  }

  function ContextNode(node: SyntaxTree): SyntaxTree {
    match ContextChoice(node)
    case None => node
    case Some(i) => node.children[i]
  }

  /** The span a syntax-tree diagnostic is located at: the context node's
      token, in the stream that node still refers to. */
  function NodeSpan(node: SyntaxTree): TokenInfo
    requires ContextNode(node).tokenStream.Some?
  {
    var context := ContextNode(node);
    TokenInfo(context.tokenStream.value, context.token.begin, context.token.end)
  }

  /** The fixed internal-error diagnostic; it carries no location. */
  function InternalError(): (r: string)
    ensures r == "gta3sc: " + "internal_error" + ": "
                 + ("context->" + "token_stream() " + "== nullptr " + "during " + "format_error")
  {
    FormatNoContext(Some(InternalErrorType), InternalErrorMessage)
  }

  /** `format_error(type, syntax_tree, msg)`: resolve the context node, then
      format its token in its stream; if that stream has expired, the
      result is the internal error whatever the severity and message. */
  function FormatNode(ty: Option<string>, node: SyntaxTree, msg: string): (r: string)
    ensures ContextNode(node).tokenStream.None? ==> r == InternalError()
    ensures ContextNode(node).tokenStream.Some? && ContextNode(node).token.begin == ContextNode(node).token.end ==>
              r == ContextNode(node).tokenStream.value.streamName + ": " + SeverityTag(ty) + msg
    ensures ContextNode(node).tokenStream.Some? ==> LocatedIn(r, ContextNode(node).tokenStream.value.streamName)
  {
    if ContextNode(node).tokenStream.None? then InternalError()
    else FormatToken(ty, NodeSpan(node), msg)
  }

  /** The three-argument `format_error`, whichever context it is given. */
  function Format(ty: Option<string>, context: Context, msg: string): (r: string)
    ensures context.NoContext? ==> r == "gta3sc: " + SeverityTag(ty) + msg
    ensures context.ScriptContext? ==> r == context.script.path + ": " + SeverityTag(ty) + msg
    ensures context.TokenContext? ==> LocatedIn(r, context.info.stream.streamName)
    ensures context.NodeContext? && ContextNode(context.node).tokenStream.None? ==> r == InternalError()
    ensures context.NodeContext? && ContextNode(context.node).tokenStream.Some? ==>
              LocatedIn(r, ContextNode(context.node).tokenStream.value.streamName)
  {
    match context
    case NoContext => FormatNoContext(ty, msg)
    case ScriptContext(script) => FormatScript(ty, script, msg)
    case TokenContext(info) => FormatToken(ty, info, msg)
    case NodeContext(node) => FormatNode(ty, node, msg)
  }
}

=== FILE: options.dfy ===
/** `Options`: the compiler's flags and limits, its preprocessor symbol
    table, and the conversion of the target header version into the
    enumeration an output stage wants. */
module CompilerOptions {
  import opened Base

  /** Source language enumeration; `Options` declares it but keeps no
      field of this type. */
  datatype Lang = IR2 | GTA3Script

  /** Target script-header generation; `None` means no code is generated. */
  datatype HeaderVersion = None | GTA3 | GTAVC | GTASA

  /** The header enumerations of the output stages (compiled and
      decompiled) share these three constants. */
  datatype ScmVersion = Liberty | Miami | SanAndreas

  /** The flags and limits of `Options`; `define` and `undefine` never
      touch them. */
  datatype Settings = Settings(
    // boolean flags
    headerless: bool,
    pedantic: bool,
    guesser: bool,
    useHalfFloat: bool,
    hasTextLabelPrefix: bool,
    skipSingleIfs: bool,
    optimizeZeroFloats: bool,
    entityTracking: bool,
    scriptNameCheck: bool,
    fswitch: bool,
    allowBreakContinue: bool,
    scopeThenLabel: bool,
    farrays: bool,
    streamedScripts: bool,
    textLabelVars: bool,
    useLocalOffsets: bool,
    skipCutscene: bool,
    fsyntaxOnly: bool,
    emitIr2: bool,
    linearSweep: bool,
    relaxNot: bool,
    outputCleo: bool,
    // 8 bit values
    header: HeaderVersion,
    cleo: Option<U8>,
    // 32 bit values
    timerIndex: I32,
    localVarLimit: U32,
    missionVarBegin: U32,
    missionVarLimit: Option<U32>,
    switchCaseLimit: Option<U32>,
    arrayElemLimit: Option<U32>)

  /** `Options`: the settings plus the preprocessor symbols, which are
      compared by exact spelling. */
  datatype Options = Options(settings: Settings, defines: map<string, string>)

  /** A default-constructed `Options`. */
  function Defaults(): (o: Options)
    ensures o.settings.entityTracking && o.settings.scriptNameCheck
    ensures !o.settings.headerless && !o.settings.pedantic && !o.settings.guesser
    ensures !o.settings.useHalfFloat && !o.settings.hasTextLabelPrefix && !o.settings.skipSingleIfs
    ensures !o.settings.optimizeZeroFloats && !o.settings.fswitch && !o.settings.allowBreakContinue
    ensures !o.settings.scopeThenLabel && !o.settings.farrays && !o.settings.streamedScripts
    ensures !o.settings.textLabelVars && !o.settings.useLocalOffsets && !o.settings.skipCutscene
    ensures !o.settings.fsyntaxOnly && !o.settings.emitIr2 && !o.settings.linearSweep
    ensures !o.settings.relaxNot && !o.settings.outputCleo
    ensures o.settings.header == HeaderVersion.None && o.settings.cleo.None?
    ensures o.settings.timerIndex == 0 && o.settings.localVarLimit == 0
    ensures o.settings.missionVarBegin == 0 && o.settings.missionVarLimit.None?
    ensures o.settings.switchCaseLimit.None? && o.settings.arrayElemLimit.None?
    ensures forall s :: !IsDefined(o, s)
  {
    var settings := Settings(
      false, false, false, false, false, false, false, true, true, false, false,
      false, false, false, false, false, false, false, false, false, false, false,
      HeaderVersion.None, Base.None, 0, 0, 0, Base.None, Base.None, Base.None);
    Options(settings, map[])
  }

  /** `is_defined`. */
  predicate IsDefined(o: Options, symbol: string) {
    symbol in o.defines
  }

  /** `std::map::emplace`, which `define` uses: it inserts only when the
      key is absent. */
  function Emplace(m: map<string, string>, key: string, value: string): map<string, string> {
    if key in m then m else m[key := value]
  }

  /** `define(symbol, value = "1")`, which inserts with `emplace`: a symbol
      that is already defined keeps its earlier value. */
  function Define(o: Options, symbol: string, value: string := "1"): (r: Options)
    ensures IsDefined(r, symbol)
    ensures IsDefined(o, symbol) ==> r.defines[symbol] == o.defines[symbol]
    ensures !IsDefined(o, symbol) ==> r.defines[symbol] == value
    ensures forall s :: s != symbol ==> (IsDefined(r, s) <==> IsDefined(o, s))
    ensures forall s :: s != symbol && IsDefined(o, s) ==> IsDefined(r, s) && r.defines[s] == o.defines[s]
    ensures r.settings == o.settings
  {
    o.(defines := Emplace(o.defines, symbol, value))
  }

  /** `undefine(symbol)`: removes that one symbol, and does nothing when it
      is absent. */
  function Undefine(o: Options, symbol: string): (r: Options)
    ensures !IsDefined(r, symbol)
    ensures forall s :: s != symbol ==> (IsDefined(r, s) <==> IsDefined(o, s))
    ensures forall s :: s != symbol && IsDefined(o, s) ==> IsDefined(r, s) && r.defines[s] == o.defines[s]
    ensures !IsDefined(o, symbol) ==> r == o
    ensures r.settings == o.settings
  {
    if symbol in o.defines then o.(defines := o.defines - {symbol}) else o
  }

  lemma EmplaceCommutes(m: map<string, string>, a: string, v: string, b: string, w: string)
    requires a != b
    ensures Emplace(Emplace(m, a, v), b, w) == Emplace(Emplace(m, b, w), a, v)
  {
    var l := Emplace(Emplace(m, a, v), b, w);
    var r := Emplace(Emplace(m, b, w), a, v);
    assert l.Keys == r.Keys;
    forall k | k in l
      ensures l[k] == r[k]
    {
    }
  }

  /** `get_header<TEnum>()`: callers must not ask when the header is
      `None` (the source marks that branch unreachable). */
  function GetHeader(o: Options): (v: ScmVersion)
    requires o.settings.header != HeaderVersion.None
    ensures HeaderOf(v) == o.settings.header
  {
    match o.settings.header
    case GTA3 => Liberty
    case GTAVC => Miami
    case GTASA => SanAndreas
  }

  /** The header version each target constant stands for. */
  function HeaderOf(v: ScmVersion): (h: HeaderVersion)
    ensures h != HeaderVersion.None
  {
    match v
    case Liberty => GTA3
    case Miami => GTAVC
    case SanAndreas => GTASA
  }

  /** `get_header` is a bijection between the three concrete header
      versions and the three target constants. */
  lemma GetHeaderRoundTrip(o: Options, v: ScmVersion)
    ensures GetHeader(o.(settings := o.settings.(header := HeaderOf(v)))) == v
    ensures o.settings.header != HeaderVersion.None ==> HeaderOf(GetHeader(o)) == o.settings.header
  {
  }

  /** Re-defining a symbol is a no-op: the first value wins. */
  lemma DefineKeepsFirstValue(o: Options, symbol: string, v: string, w: string)
    ensures Define(Define(o, symbol, v), symbol, w) == Define(o, symbol, v)
  {
  }

  /** Definitions of two different symbols commute. */
  lemma DefineCommutes(o: Options, a: string, v: string, b: string, w: string)
    requires a != b
    ensures Define(Define(o, a, v), b, w) == Define(Define(o, b, w), a, v)
  {
    EmplaceCommutes(o.defines, a, v, b, w);
  }

  /** Undefining right after a define forgets the symbol whatever its
      earlier state, and leaves every other symbol as it was. */
  lemma UndefineAfterDefine(o: Options, symbol: string, v: string)
    ensures Undefine(Define(o, symbol, v), symbol) == Undefine(o, symbol)
  {
    if symbol !in o.defines {
      var m := o.defines;
      assert m[symbol := v] - {symbol} == m;
    }
  }

  /** Defining a symbol right after undefining it installs the new value. */
  lemma DefineAfterUndefine(o: Options, symbol: string, v: string)
    ensures Define(Undefine(o, symbol), symbol, v).defines[symbol] == v
  {
  }

  /** One preprocessor request: a `define` or an `undefine`. */
  datatype SymbolRequest = DefineRequest(symbol: string, value: string) | UndefineRequest(symbol: string)

  function Perform(o: Options, request: SymbolRequest): Options {
    match request
    case DefineRequest(symbol, value) => Define(o, symbol, value)
    case UndefineRequest(symbol) => Undefine(o, symbol)
  }

  /** Performs the requests in order. */
  function PerformAll(o: Options, requests: seq<SymbolRequest>): Options
    decreases |requests|
  {
    if |requests| == 0 then o
    else Perform(PerformAll(o, requests[..|requests| - 1]), requests[|requests| - 1])
  }

  /** The latest request about `symbol`: `Some(true)` for a define,
      `Some(false)` for an undefine, `None` when no request names it. */
  function LatestRequest(requests: seq<SymbolRequest>, symbol: string): Option<bool>
    decreases |requests|
  {
    if |requests| == 0 then Base.None
    else if requests[|requests| - 1].symbol == symbol then Some(requests[|requests| - 1].DefineRequest?)
    else LatestRequest(requests[..|requests| - 1], symbol)
  }

  /** `is_defined` after any series of requests: a symbol is defined
      exactly when the latest request naming it was a define, or, when
      none names it, when it was defined to begin with. */
  lemma {:induction false} IsDefinedAfterRequests(o: Options, requests: seq<SymbolRequest>, symbol: string)
    ensures IsDefined(PerformAll(o, requests), symbol)
            <==> (if LatestRequest(requests, symbol).Some?
                  then LatestRequest(requests, symbol).value
                  else IsDefined(o, symbol))
    decreases |requests|
  {
    if |requests| > 0 {
      IsDefinedAfterRequests(o, requests[..|requests| - 1], symbol);
    }
  }
}

=== FILE: program_context.dfy ===
/** `ProgramContext`: the compilation run's shared state as the reporting
    operations see it. The three counters are plain naturals read
    sequentially; each report emits one write to the diagnostic sink
    (standard error), recorded here in `stderr`. A fatal report does not
    return: it yields `Halt`, the model of `HaltJobException`. */
module Reporting {
  import opened Base
  import opened CompilerOptions
  import opened Diagnostics

  /** A built-in command; only its availability under the active target
      matters here. */
  datatype Command = Command(name: string, supported: bool)

  /** One overload (`Commands::Alternator`) of a command. */
  datatype Alternator = Alternator(command: string, index: nat)

  /** The command catalog, held but not consulted by these operations. */
  datatype Commands = Commands(commands: seq<Command>)

  /** A model-name to model-id table (`std::map<std::string, uint32_t, iless>`). */
  type ModelTable = map<string, U32>

  datatype ProgramContext = ProgramContext(
    opt: Options,
    commands: Commands,
    errorCount: nat,
    fatalCount: nat,
    warnCount: nat,
    defaultModels: ModelTable,
    levelModels: ModelTable,
    stderr: seq<string>)

  /** Outcome of an operation that may abort the current job: it either
      continues with a value, or halts (the job is unwound to its driver). */
  datatype Step<T> = Continue(state: ProgramContext, value: T) | Halt(state: ProgramContext)

  /** The severity tags the reporting operations pass to the formatter. */
  const ErrorTag: string := "error"
  const NoteTag: string := "note"
  const WarningTag: string := "warning"
  const FatalTag: string := "fatal error"

  /** Everything but the counters and the output is the same. */
  predicate SameSetup(a: ProgramContext, b: ProgramContext) {
    && a.opt == b.opt
    && a.commands == b.commands
    && a.defaultModels == b.defaultModels
    && a.levelModels == b.levelModels
  }

  /** A freshly constructed context: no report yet, empty model tables. */
  function Init(opt: Options, commands: Commands): (pc: ProgramContext)
    ensures pc.opt == opt && pc.commands == commands
    ensures pc.errorCount == 0 && pc.fatalCount == 0 && pc.warnCount == 0
    ensures pc.defaultModels == map[] && pc.levelModels == map[]
    ensures pc.stderr == []
    ensures !HasError(pc)
  {
    ProgramContext(opt, commands, 0, 0, 0, map[], map[], [])
  }

  /** `setup_models`: replaces both model tables. */
  function SetupModels(pc: ProgramContext, defaultModels: ModelTable, levelModels: ModelTable)
    : (r: ProgramContext)
    ensures r.defaultModels == defaultModels && r.levelModels == levelModels
    ensures r.opt == pc.opt && r.commands == pc.commands
    ensures r.errorCount == pc.errorCount && r.fatalCount == pc.fatalCount
    ensures r.warnCount == pc.warnCount && r.stderr == pc.stderr
  {
    pc.(defaultModels := defaultModels, levelModels := levelModels)
  }

  /** `has_error`: an error or a fatal error has been reported. Warnings do
      not count. */
  predicate HasError(pc: ProgramContext) {
    pc.errorCount > 0 || pc.fatalCount > 0
  }

  /** `puts`: one write of the text and a newline. */
  function Puts(pc: ProgramContext, text: string): (r: ProgramContext)
    ensures |r.stderr| == |pc.stderr| + 1 && r.stderr[..|pc.stderr|] == pc.stderr
    ensures var written := r.stderr[|pc.stderr|];
            |written| == |text| + 1 && written[..|text|] == text && written[|text|] == '\n'
    ensures r.errorCount == pc.errorCount && r.fatalCount == pc.fatalCount
    ensures r.warnCount == pc.warnCount && SameSetup(r, pc)
  {
    pc.(stderr := pc.stderr + [text + "\n"])
  }

  /** `error`: one more error, and the diagnostic tagged "error". */
  function Error(pc: ProgramContext, context: Context, msg: string): (r: ProgramContext)
    ensures r.errorCount == pc.errorCount + 1
    ensures r.fatalCount == pc.fatalCount && r.warnCount == pc.warnCount
    ensures r.stderr == pc.stderr + [Format(Some(ErrorTag), context, msg) + "\n"]
    ensures SameSetup(r, pc)
    ensures HasError(r)
  {
    Puts(pc.(errorCount := pc.errorCount + 1), Format(Some(ErrorTag), context, msg))
  }

  /** `note`: only the diagnostic tagged "note"; no counter moves. */
  function Note(pc: ProgramContext, context: Context, msg: string): (r: ProgramContext)
    ensures r.errorCount == pc.errorCount && r.fatalCount == pc.fatalCount
    ensures r.warnCount == pc.warnCount
    ensures r.stderr == pc.stderr + [Format(Some(NoteTag), context, msg) + "\n"]
    ensures SameSetup(r, pc)
    ensures HasError(r) == HasError(pc)
  {
    Puts(pc, Format(Some(NoteTag), context, msg))
  }

  /** `warning`: one more warning, and the diagnostic tagged "warning". */
  function Warning(pc: ProgramContext, context: Context, msg: string): (r: ProgramContext)
    ensures r.warnCount == pc.warnCount + 1
    ensures r.errorCount == pc.errorCount && r.fatalCount == pc.fatalCount
    ensures r.stderr == pc.stderr + [Format(Some(WarningTag), context, msg) + "\n"]
    ensures SameSetup(r, pc)
    ensures HasError(r) == HasError(pc)
  {
    Puts(pc.(warnCount := pc.warnCount + 1), Format(Some(WarningTag), context, msg))
  }

  /** `fatal_error`: one more fatal error, the diagnostic tagged
      "fatal error", and then the job halts; it never continues. */
  function FatalError(pc: ProgramContext, context: Context, msg: string): (r: Step<()>)
    ensures r.Halt?
    ensures r.state.fatalCount == pc.fatalCount + 1
    ensures r.state.errorCount == pc.errorCount && r.state.warnCount == pc.warnCount
    ensures r.state.stderr == pc.stderr + [Format(Some(FatalTag), context, msg) + "\n"]
    ensures SameSetup(r.state, pc)
    ensures HasError(r.state)
  {
    Halt(Puts(pc.(fatalCount := pc.fatalCount + 1), Format(Some(FatalTag), context, msg)))
  }

  /** `register_errors(n)`: adds `n` errors at once, without a diagnostic;
      `n` may be 0. */
  function RegisterErrors(pc: ProgramContext, n: U32): (r: ProgramContext)
    ensures r.errorCount == pc.errorCount + n
    ensures r.fatalCount == pc.fatalCount && r.warnCount == pc.warnCount
    ensures r.stderr == pc.stderr && SameSetup(r, pc)
    ensures n == 0 ==> r == pc
    ensures n > 0 ==> HasError(r)
    ensures HasError(pc) ==> HasError(r)
  {
    pc.(errorCount := pc.errorCount + n)
  }

  /** The message of a failed command lookup. */
  function UnsupportedCommand(name: string): string {
    "command '" + name + "' undefined or unsupported"
  }

  /** The message of a failed overload lookup. */
  function UnsupportedAlternator(name: string): string {
    "alternator '" + name + "' undefined or unsupported"
  }

  /** `supported_or_fatal` for a command: the command comes back unchanged
      exactly when it was found and is supported; otherwise the job halts
      with a fatal error naming it. */
  function SupportedOrFatal(pc: ProgramContext, context: Context, opt: Option<Command>, name: string)
    : (r: Step<Command>)
    ensures r.Continue? <==> opt.Some? && opt.value.supported
    ensures r.Continue? ==> r.value == opt.value && r.state == pc
    ensures r.Halt? ==> r.state.fatalCount == pc.fatalCount + 1
    ensures r.Halt? ==> r.state.errorCount == pc.errorCount && r.state.warnCount == pc.warnCount
    ensures r.Halt? ==>
              r.state.stderr == pc.stderr + [Format(Some(FatalTag), context, UnsupportedCommand(name)) + "\n"]
    ensures r.Halt? ==> SameSetup(r.state, pc)
  {
    if opt.None? || !opt.value.supported then
      Halt(FatalError(pc, context, UnsupportedCommand(name)).state)
    else
      Continue(pc, opt.value)
  }

  /** `supported_or_fatal` for an alternator: only a missing alternator
      halts the job; there is no availability flag to check. */
  function SupportedOrFatalAlternator(pc: ProgramContext, context: Context,
                                      opt: Option<Alternator>, name: string)
    : (r: Step<Alternator>)
    ensures r.Continue? <==> opt.Some?
    ensures r.Continue? ==> r.value == opt.value && r.state == pc
    ensures r.Halt? ==> r.state.fatalCount == pc.fatalCount + 1
    ensures r.Halt? ==> r.state.errorCount == pc.errorCount && r.state.warnCount == pc.warnCount
    ensures r.Halt? ==>
              r.state.stderr == pc.stderr + [Format(Some(FatalTag), context, UnsupportedAlternator(name)) + "\n"]
    ensures r.Halt? ==> SameSetup(r.state, pc)
  {
    if opt.None? then
      Halt(FatalError(pc, context, UnsupportedAlternator(name)).state)
    else
      Continue(pc, opt.value)
  }

  /** One report made on the shared context. A fatal report halts only
      the job that made it; the other jobs sharing the context go on
      reporting, so a sequence of reports may carry fatal ones anywhere. */
  datatype Report =
    | ErrorReport(context: Context, msg: string)
    | NoteReport(context: Context, msg: string)
    | WarningReport(context: Context, msg: string)
    | FatalReport(context: Context, msg: string)
    | Registered(n: U32)

  function Apply(pc: ProgramContext, report: Report): ProgramContext {
    match report
    case ErrorReport(context, msg) => Error(pc, context, msg)
    case NoteReport(context, msg) => Note(pc, context, msg)
    case WarningReport(context, msg) => Warning(pc, context, msg)
    case FatalReport(context, msg) => FatalError(pc, context, msg).state
    case Registered(n) => RegisterErrors(pc, n)
  }

  /** What one report does to the counters and the output. */
  lemma ApplyCounts(pc: ProgramContext, report: Report)
    ensures var r := Apply(pc, report);
            && r.errorCount == pc.errorCount + ErrorsIn([report])
            && r.warnCount == pc.warnCount + WarningsIn([report])
            && r.fatalCount == pc.fatalCount + FatalsIn([report])
            && |r.stderr| == |pc.stderr| + WritesIn([report])
            && SameSetup(r, pc)
  {
    assert [report][1..] == [];
  }

  /** Performs the reports in order (any interleaving of concurrent jobs'
      reports is one such order; a fatal report ends its own job only). */
  function Replay(pc: ProgramContext, reports: seq<Report>): ProgramContext
    decreases |reports|
  {
    if |reports| == 0 then pc else Replay(Apply(pc, reports[0]), reports[1..])
  }

  /** Errors a sequence of reports adds: one per error report, `n` per
      registration. */
  function ErrorsIn(reports: seq<Report>): nat
    decreases |reports|
  {
    if |reports| == 0 then 0
    else
      (match reports[0]
       case ErrorReport(_, _) => 1
       case Registered(n) => n
       case _ => 0) + ErrorsIn(reports[1..])
  }

  function WarningsIn(reports: seq<Report>): nat
    decreases |reports|
  {
    if |reports| == 0 then 0
    else (if reports[0].WarningReport? then 1 else 0) + WarningsIn(reports[1..])
  }

  function FatalsIn(reports: seq<Report>): nat
    decreases |reports|
  {
    if |reports| == 0 then 0
    else (if reports[0].FatalReport? then 1 else 0) + FatalsIn(reports[1..])
  }

  /** Reports that write a diagnostic (all but registrations). */
  function WritesIn(reports: seq<Report>): nat
    decreases |reports|
  {
    if |reports| == 0 then 0
    else (if reports[0].Registered? then 0 else 1) + WritesIn(reports[1..])
  }

  /** Each count of a non-empty sequence is the count of its first report
      plus the count of the rest. */
  lemma CountsSplit(reports: seq<Report>)
    requires |reports| > 0
    ensures ErrorsIn(reports) == ErrorsIn([reports[0]]) + ErrorsIn(reports[1..])
    ensures WarningsIn(reports) == WarningsIn([reports[0]]) + WarningsIn(reports[1..])
    ensures FatalsIn(reports) == FatalsIn([reports[0]]) + FatalsIn(reports[1..])
    ensures WritesIn(reports) == WritesIn([reports[0]]) + WritesIn(reports[1..])
  {
    assert [reports[0]][1..] == [];
  }

  /** After any sequence of reports each counter has grown by exactly the
      errors, warnings and fatal errors reported, and there is exactly one
      write per diagnostic. */
  lemma {:induction false} ReplayCounts(pc: ProgramContext, reports: seq<Report>)
    ensures Replay(pc, reports).errorCount == pc.errorCount + ErrorsIn(reports)
    ensures Replay(pc, reports).warnCount == pc.warnCount + WarningsIn(reports)
    ensures Replay(pc, reports).fatalCount == pc.fatalCount + FatalsIn(reports)
    ensures |Replay(pc, reports).stderr| == |pc.stderr| + WritesIn(reports)
    ensures SameSetup(Replay(pc, reports), pc)
    decreases |reports|
  {
    if |reports| > 0 {
      ApplyCounts(pc, reports[0]);
      ReplayCounts(Apply(pc, reports[0]), reports[1..]);
      CountsSplit(reports);
    }
  }

  /** Once an error is on record no later report can clear it, and a run
      that reported any error or fatal error, or registered any error, has
      one on record. */
  lemma {:induction false} ReplayKeepsError(pc: ProgramContext, reports: seq<Report>)
    ensures HasError(Replay(pc, reports)) <==> HasError(pc) || ErrorsIn(reports) + FatalsIn(reports) > 0
  {
    ReplayCounts(pc, reports);
  }

  /** From a fresh context, `has_error` holds after a run exactly when
      the run reported an error or a fatal error or registered an error;
      notes and warnings alone never set it. */
  lemma HasErrorFromStart(opt: Options, commands: Commands, reports: seq<Report>)
    ensures HasError(Replay(Init(opt, commands), reports)) <==> ErrorsIn(reports) + FatalsIn(reports) > 0
  {
    ReplayKeepsError(Init(opt, commands), reports);
  }

  /** The counters as the source declares them, `std::atomic<uint32_t>`,
      whose increments wrap modulo 2^32. */
  datatype Counters32 = Counters32(errorCount: U32, fatalCount: U32, warnCount: U32)

  predicate HasError32(c: Counters32) {
    c.errorCount > 0 || c.fatalCount > 0
  }

  /** `register_errors` as written: the 32-bit error counter wraps. */
  function RegisterErrors32(c: Counters32, n: U32): (r: Counters32)
    ensures c.errorCount + n < U32_LIMIT ==> r.errorCount == c.errorCount + n
    ensures c.errorCount + n >= U32_LIMIT ==> r.errorCount == c.errorCount + n - U32_LIMIT
    ensures r.fatalCount == c.fatalCount && r.warnCount == c.warnCount
  {
    c.(errorCount := (c.errorCount + n) % U32_LIMIT)
  }

  /** With no fatal error on record, registering errors clears `has_error`
      exactly when the counter wraps to zero. */
  lemma RegisterErrors32Clears(c: Counters32, n: U32)
    requires c.fatalCount == 0
    ensures (HasError32(c) && !HasError32(RegisterErrors32(c, n)))
            <==> (c.errorCount > 0 && c.errorCount + n == U32_LIMIT)
  {
  }

  /** The concrete input: one error on record, then 4294967295 more
      registered, and `has_error` is false. */
  lemma RegisterErrors32Counterexample()
    ensures HasError32(Counters32(1, 0, 0))
    ensures !HasError32(RegisterErrors32(Counters32(1, 0, 0), 0xFFFF_FFFF))
  {
  }
}

=== FILE: reader.dfy ===
/** How a tool (an IDE integration, a script that collects errors) reads a diagnostic
    back: the first line gives `file:line:col: text`, and an optional pair
    of further lines gives the source line and the caret. The lemmas show
    that reading inverts `format_error` whenever the pieces themselves do
    not contain the separators. */
module DiagnosticReader {
  import opened Base
  import opened Text
  import Decimal
  import opened Diagnostics

  /** The source line shown under a diagnostic and the number of
      characters before the caret on the line below it. */
  datatype SourceExcerpt = SourceExcerpt(source: string, caret: nat)

  /** What a reader recovers; 0 stands for an absent line or column. */
  datatype Reading = Reading(
    file: string,
    line: nat,
    col: nat,
    text: string,
    excerpt: Option<SourceExcerpt>)

  /** A numeric field and what follows it. */
  datatype Field = Field(value: nat, rest: string)

  /** Reads `digits ':'` at the start of `s`, where the digits spell a
      positive number (no leading zero, as `std::to_string` writes them);
      when there is no such field the value is 0 and nothing is consumed. */
  function ReadField(s: string): (f: Field)
    ensures |f.rest| <= |s| && s[|s| - |f.rest|..] == f.rest
    ensures |f.rest| < |s| ==>
              (|f.rest| + 2 <= |s| && s[|s| - |f.rest| - 1] == ':' && AllDigits(s[..|s| - |f.rest| - 1]))
    ensures |f.rest| < |s| ==> s[0] != '0'
  {
    var k := DigitRun(s);
    if 0 < k < |s| && s[k] == ':' && s[0] != '0' then Field(Decimal.Parse(s[..k]), s[k + 1..])
    else Field(0, s)
  }

  /** A line of blanks ending in a caret, with at least one blank. */
  predicate IsCaretLine(s: string) {
    |s| >= 2 && s[|s| - 1] == '^' && forall i :: 0 <= i < |s| - 1 ==> s[i] == ' '
  }

  /** The lines after the first: none (no excerpt), or an indented source
      line followed by a caret line. Anything else is unreadable. */
  function ReadExcerpt(more: seq<string>): Option<Option<SourceExcerpt>> {
    if |more| == 0 then Some(None)
    else if |more| == 2 && |more[0]| >= 1 && more[0][0] == ' ' && IsCaretLine(more[1])
    then Some(Some(SourceExcerpt(more[0][1..], |more[1]| - 1)))
    else None
  }

  /** The first line of a diagnostic: file, line, column and text. */
  datatype Head = Head(file: string, line: nat, col: nat, text: string)

  /** Reads the first line: everything up to the first colon is the file,
      then up to two numeric fields, then one blank before the text. */
  function ReadHeadLine(head: string): Option<Head> {
    match IndexOf(head, ':')
    case None => None
    case Some(i) =>
      var line := ReadField(head[i + 1..]);
      var col := ReadField(line.rest);
      if |col.rest| == 0 || col.rest[0] != ' ' then None
      else Some(Head(head[..i], line.value, col.value, col.rest[1..]))
  }

  /** Reads a whole diagnostic. */
  function Read(r: string): Option<Reading> {
    var lines := Split(r, '\n');
    match (ReadHeadLine(lines[0]), ReadExcerpt(lines[1..]))
    case (Some(h), Some(excerpt)) => Some(Reading(h.file, h.line, h.col, h.text, excerpt))
    case _ => None
  }

  /** A number written by `std::to_string` and a colon reads back as that
      number. */
  lemma ReadFieldNumber(n: nat, rest: string)
    requires n > 0
    ensures ReadField(Decimal.ToString(n) + ":" + rest) == Field(n, rest)
  {
    var d := Decimal.ToString(n);
    assert d + ":" + rest == d + (":" + rest);
    ReadFieldDigits(d, rest);
    Decimal.ParseToString(n);
  }

  /** Digits without a leading zero and a colon form one field. */
  lemma ReadFieldDigits(d: string, rest: string)
    requires |d| > 0 && AllDigits(d) && d[0] != '0'
    ensures ReadField(d + (":" + rest)) == Field(Decimal.Parse(d), rest)
  {
    var s := d + (":" + rest);
    DigitRunOf(d, ":" + rest);
    assert s[..|d|] == d;
    assert s[0] == d[0];
    assert s[|d| + 1..] == rest;
  }

  /** A zero never starts a field: `0:` is not read as a line or a
      column, since the formatter writes only positive numbers. */
  lemma ReadFieldRejectsZero(rest: string)
    ensures ReadField("0:" + rest) == Field(0, "0:" + rest)
  {
  }

  /** A blank where a field could start means there is no field. */
  lemma ReadFieldBlank(s: string)
    requires |s| > 0 && s[0] == ' '
    ensures ReadField(s) == Field(0, s)
  {
  }

  lemma SplitWhole(s: string, sep: char)
    requires sep !in s
    ensures Split(s, sep) == [s]
  {
  }

  lemma NoNewlineInNumber(n: nat)
    ensures '\n' !in Decimal.ToString(n) && ':' !in Decimal.ToString(n)
  {
    var d := Decimal.ToString(n);
    assert forall i :: 0 <= i < |d| ==> IsDigit(d[i]);
  }

  /** The pieces of a diagnostic contain no separator a reader relies on:
      no newline anywhere, and no colon in the file name. */
  predicate Readable(ty: Option<string>, stream: Option<TextStream>,
                     filename: Option<string>, line: U32, msg: string)
  {
    && (filename.Some? ==> ':' !in filename.value && '\n' !in filename.value)
    && (ty.Some? ==> '\n' !in ty.value)
    && '\n' !in msg
    && (HasExcerpt(stream, line) ==> '\n' !in stream.value.getLine(line))
  }

  /** Everything after the file tag on the first line. */
  function Fields(line: U32, col: U32): string {
    (if line != 0 then Decimal.ToString(line) + ":" else "")
      + (if line != 0 && col != 0 then Decimal.ToString(col) + ":" else "")
  }

  /** The location is the file (or program tag), a colon, and the
      numeric fields. */
  lemma LocationParts(filename: Option<string>, line: U32, col: U32)
    ensures Location(filename, line, col)
            == (if filename.Some? then filename.value else ProgramTag) + [':'] + Fields(line, col)
  {
  }

  /** The numeric fields read back as the line, and the column when the
      line is known, leaving the text that follows. */
  lemma ReadFields(line: U32, col: U32, text: string)
    requires |text| > 0 && text[0] == ' '
    ensures var l := ReadField(Fields(line, col) + text);
            var c := ReadField(l.rest);
            l.value == line && c.value == (if line != 0 then col else 0) && c.rest == text
  {
    if line == 0 {
      assert Fields(line, col) + text == text;
      ReadFieldBlank(text);
    } else if col == 0 {
      assert Fields(line, col) + text == Decimal.ToString(line) + ":" + text;
      ReadFieldNumber(line, text);
      ReadFieldBlank(text);
    } else {
      var cs := Decimal.ToString(col) + ":" + text;
      assert Fields(line, col) + text == Decimal.ToString(line) + ":" + cs;
      ReadFieldNumber(line, cs);
      ReadFieldNumber(col, text);
    }
  }

  /** A first line made of a file name without colons, a colon, the
      numeric fields and a blank-led text reads back as those parts. */
  lemma ReadHeadOf(name: string, fields: string, text: string)
    requires ':' !in name
    requires |text| > 0 && text[0] == ' '
    requires ReadField(ReadField(fields + text).rest).rest == text
    ensures var l := ReadField(fields + text);
            ReadHeadLine(name + [':'] + (fields + text))
            == Some(Head(name, l.value, ReadField(l.rest).value, text[1..]))
  {
    HeadSlices(name, fields + text);
    var l := ReadField(fields + text);
    ReadHeadLineOf(name + [':'] + (fields + text), name, l, ReadField(l.rest), text);
  }

  /** The first colon of `name + ":" + rest` is the one after `name`. */
  lemma HeadSlices(name: string, rest: string)
    requires ':' !in name
    ensures var head := name + [':'] + rest;
            && IndexOf(head, ':') == Some(|name|)
            && |name| < |head| && head[..|name|] == name
            && head[|name| + 1..] == rest
  {
    var head := name + [':'] + rest;
    IndexOfAfter(name, ':', rest);
    assert head[..|name|] == name;
    assert head[|name| + 1..] == rest;
  }

  /** A first line whose first colon ends the file name, followed by two
      field readings and a blank, reads back as those parts. */
  lemma ReadHeadLineOf(head: string, name: string, l: Field, c: Field, text: string)
    requires IndexOf(head, ':') == Some(|name|)
    requires |name| < |head| && head[..|name|] == name
    requires ReadField(head[|name| + 1..]) == l
    requires ReadField(l.rest) == c
    requires c.rest == text && |text| > 0 && text[0] == ' '
    ensures ReadHeadLine(head) == Some(Head(name, l.value, c.value, text[1..]))
  {
  }

  /** The caret line reads back with exactly `col` characters before the
      caret (one when the column is unknown). */
  lemma CaretLine(col: U32)
    ensures IsCaretLine(" " + AlignRight("^", col))
    ensures |" " + AlignRight("^", col)| - 1 == if col == 0 then 1 else col
  {
    var s := " " + AlignRight("^", col);
    var a := AlignRight("^", col);
    assert a[|a| - 1..] == "^";
    assert s[|s| - 1] == a[|a| - 1];
    forall i | 0 <= i < |s| - 1
      ensures s[i] == ' '
    {
      if i > 0 {
        assert s[i] == a[i - 1];
      }
    }
  }

  /** A diagnostic whose first line and excerpt lines are readable is
      readable as a whole. */
  lemma ReadParts(r: string, lines: seq<string>, h: Head, ex: Option<SourceExcerpt>)
    requires Split(r, '\n') == lines
    requires ReadHeadLine(lines[0]) == Some(h)
    requires ReadExcerpt(lines[1..]) == Some(ex)
    ensures Read(r) == Some(Reading(h.file, h.line, h.col, h.text, ex))
  {
  }

  /** The blank-led text after the location on the first line. */
  function Body(ty: Option<string>, msg: string): (t: string)
    ensures |t| > 0 && t[0] == ' ' && t[1..] == SeverityTag(ty) + msg
  {
    " " + SeverityTag(ty) + msg
  }

  /** The first line is the file name, a colon, the fields and the body. */
  lemma HeadLineParts(ty: Option<string>, filename: Option<string>, line: U32, col: U32,
                      msg: string)
    ensures HeadLine(ty, filename, line, col, msg)
            == (if filename.Some? then filename.value else ProgramTag) + [':'] + (Fields(line, col) + Body(ty, msg))
  {
    var name := if filename.Some? then filename.value else ProgramTag;
    LocationParts(filename, line, col);
    assert Location(filename, line, col) == name + [':'] + Fields(line, col);
    assert HeadLine(ty, filename, line, col, msg) == Location(filename, line, col) + Body(ty, msg);
    Associate(name + [':'], Fields(line, col), Body(ty, msg));
  }

  lemma Associate(a: string, b: string, c: string)
    ensures a + b + c == a + (b + c)
  {
  }

  /** A one-line diagnostic reads back without an excerpt. */
  lemma ReadOneLine(r: string, head: string, h: Head)
    requires Split(r, '\n') == [head]
    requires ReadHeadLine(head) == Some(h)
    ensures Read(r) == Some(Reading(h.file, h.line, h.col, h.text, None))
  {
    assert [head][1..] == [];
    ReadParts(r, [head], h, None);
  }

  /** A three-line diagnostic reads back with the excerpt its last two
      lines give. */
  lemma ReadThreeLines(r: string, head: string, x: string, y: string, h: Head, ex: SourceExcerpt)
    requires Split(r, '\n') == [head, x, y]
    requires ReadHeadLine(head) == Some(h)
    requires ReadExcerpt([x, y]) == Some(Some(ex))
    ensures Read(r) == Some(Reading(h.file, h.line, h.col, h.text, Some(ex)))
  {
    assert [head, x, y][1..] == [x, y];
    ReadParts(r, [head, x, y], h, Some(ex));
  }

  /** The first line of a formatted diagnostic reads back as its file,
      line, column (only with a line) and severity-tagged message. */
  lemma ReadFormattedHead(ty: Option<string>, filename: Option<string>, line: U32, col: U32,
                          msg: string)
    requires filename.Some? ==> ':' !in filename.value
    ensures ReadHeadLine(HeadLine(ty, filename, line, col, msg))
            == Some(FormattedHead(ty, filename, line, col, msg))
  {
    var name := if filename.Some? then filename.value else ProgramTag;
    assert ':' !in name;
    HeadLineParts(ty, filename, line, col, msg);
    ReadFields(line, col, Body(ty, msg));
    ReadHeadOf(name, Fields(line, col), Body(ty, msg));
  }

  /** The first line of a formatted diagnostic. */
  function HeadLine(ty: Option<string>, filename: Option<string>, line: U32, col: U32,
                    msg: string): string
  {
    Location(filename, line, col) + Body(ty, msg)
  }

  /** The base formatter writes the first line, then the excerpt (the
      location prefix is never empty, so the blank is always written). */
  lemma FormatErrorParts(ty: Option<string>, stream: Option<TextStream>,
                         filename: Option<string>, line: U32, col: U32, msg: string)
    ensures FormatError(ty, stream, filename, line, col, msg)
            == HeadLine(ty, filename, line, col, msg) + Excerpt(stream, line, col)
  {
    LocationStartsWithTag(filename, line, col);
    Regroup(Location(filename, line, col), SeverityTag(ty), msg, Excerpt(stream, line, col));
  }

  lemma Regroup(p: string, s: string, m: string, e: string)
    ensures p + " " + s + m + e == p + (" " + s + m) + e
  {
  }

  lemma HeadLineSingle(ty: Option<string>, filename: Option<string>, line: U32, col: U32,
                       msg: string)
    requires filename.Some? ==> '\n' !in filename.value
    requires ty.Some? ==> '\n' !in ty.value
    requires '\n' !in msg
    ensures '\n' !in HeadLine(ty, filename, line, col, msg)
  {
    NoNewlineInNumber(line);
    NoNewlineInNumber(col);
    var name := if filename.Some? then filename.value else ProgramTag;
    assert '\n' !in name;
    assert '\n' !in Location(filename, line, col);
    assert '\n' !in SeverityTag(ty);
  }

  lemma ExcerptShape(head: string, g: string, a: string)
    ensures head + ("\n " + g + "\n " + a) == head + ['\n'] + ((" " + g) + ['\n'] + (" " + a))
  {
    assert "\n " + g == ['\n'] + (" " + g);
    assert "\n " + a == ['\n'] + (" " + a);
  }

  lemma IndentedSplit(head: string, g: string, a: string)
    requires '\n' !in head && '\n' !in g && '\n' !in a
    ensures Split(head + ['\n'] + ((" " + g) + ['\n'] + (" " + a)), '\n') == [head, " " + g, " " + a]
  {
    var x := " " + g;
    var y := " " + a;
    assert '\n' !in x && '\n' !in y by {
      assert x == [' '] + g && y == [' '] + a;
    }
    SplitThree(head, x, y, '\n');
  }

  /** A line followed by two indented lines splits back into the three. */
  lemma ExcerptLines(head: string, g: string, a: string)
    requires '\n' !in head && '\n' !in g && '\n' !in a
    ensures Split(head + ("\n " + g + "\n " + a), '\n') == [head, " " + g, " " + a]
  {
    ExcerptShape(head, g, a);
    IndentedSplit(head, g, a);
  }

  /** An indented line followed by a caret line reads back as an
      excerpt. */
  lemma ReadExcerptOf(g: string, caret: string)
    requires IsCaretLine(caret)
    ensures ReadExcerpt([" " + g, caret]) == Some(Some(SourceExcerpt(g, |caret| - 1)))
  {
    assert (" " + g)[1..] == g;
  }

  /** The two excerpt lines read back as the source line and the caret
      position. */
  lemma ReadExcerptLines(g: string, col: U32)
    ensures ReadExcerpt([" " + g, " " + AlignRight("^", col)])
            == Some(Some(SourceExcerpt(g, if col == 0 then 1 else col)))
  {
    CaretLine(col);
    ReadExcerptOf(g, " " + AlignRight("^", col));
  }

  /** Without an excerpt a formatted diagnostic is a single line. */
  lemma FormattedLinesPlain(ty: Option<string>, stream: Option<TextStream>,
                            filename: Option<string>, line: U32, col: U32, msg: string)
    requires Readable(ty, stream, filename, line, msg)
    requires !HasExcerpt(stream, line)
    ensures Split(FormatError(ty, stream, filename, line, col, msg), '\n')
            == [HeadLine(ty, filename, line, col, msg)]
  {
    var head := HeadLine(ty, filename, line, col, msg);
    FormatErrorParts(ty, stream, filename, line, col, msg);
    HeadLineSingle(ty, filename, line, col, msg);
    assert Excerpt(stream, line, col) == "";
    assert head + "" == head;
    SplitWhole(head, '\n');
  }

  /** With an excerpt a formatted diagnostic is three lines: the first
      line, the indented source line and the caret line. */
  lemma FormattedLinesExcerpt(ty: Option<string>, stream: Option<TextStream>,
                              filename: Option<string>, line: U32, col: U32, msg: string)
    requires Readable(ty, stream, filename, line, msg)
    requires HasExcerpt(stream, line)
    ensures Split(FormatError(ty, stream, filename, line, col, msg), '\n')
            == [HeadLine(ty, filename, line, col, msg),
                " " + stream.value.getLine(line),
                " " + AlignRight("^", col)]
  {
    var head := HeadLine(ty, filename, line, col, msg);
    FormatErrorParts(ty, stream, filename, line, col, msg);
    HeadLineSingle(ty, filename, line, col, msg);
    var g := stream.value.getLine(line);
    var a := AlignRight("^", col);
    assert '\n' !in a by {
      CaretLine(col);
    }
    assert Excerpt(stream, line, col) == "\n " + g + "\n " + a;
    ExcerptLines(head, g, a);
  }

  /** The head reading of a formatted diagnostic. */
  function FormattedHead(ty: Option<string>, filename: Option<string>, line: U32, col: U32,
                         msg: string): Head
  {
    Head(if filename.Some? then filename.value else ProgramTag,
         line, if line != 0 then col else 0, SeverityTag(ty) + msg)
  }

  lemma ReadFormatErrorPlain(ty: Option<string>, stream: Option<TextStream>,
                             filename: Option<string>, line: U32, col: U32, msg: string)
    requires Readable(ty, stream, filename, line, msg)
    requires !HasExcerpt(stream, line)
    ensures var h := FormattedHead(ty, filename, line, col, msg);
            Read(FormatError(ty, stream, filename, line, col, msg))
            == Some(Reading(h.file, h.line, h.col, h.text, None))
  {
    FormattedLinesPlain(ty, stream, filename, line, col, msg);
    ReadFormattedHead(ty, filename, line, col, msg);
    ReadOneLine(FormatError(ty, stream, filename, line, col, msg), HeadLine(ty, filename, line, col, msg),
                FormattedHead(ty, filename, line, col, msg));
  }

  lemma ReadFormatErrorExcerpt(ty: Option<string>, stream: Option<TextStream>,
                               filename: Option<string>, line: U32, col: U32, msg: string)
    requires Readable(ty, stream, filename, line, msg)
    requires HasExcerpt(stream, line)
    ensures var h := FormattedHead(ty, filename, line, col, msg);
            Read(FormatError(ty, stream, filename, line, col, msg))
            == Some(Reading(h.file, h.line, h.col, h.text,
                            Some(SourceExcerpt(stream.value.getLine(line), if col == 0 then 1 else col))))
  {
    FormattedLinesExcerpt(ty, stream, filename, line, col, msg);
    ReadFormattedHead(ty, filename, line, col, msg);
    ReadExcerptLines(stream.value.getLine(line), col);
    ReadThreeLines(FormatError(ty, stream, filename, line, col, msg), HeadLine(ty, filename, line, col, msg),
                   " " + stream.value.getLine(line), " " + AlignRight("^", col),
                   FormattedHead(ty, filename, line, col, msg),
                   SourceExcerpt(stream.value.getLine(line), if col == 0 then 1 else col));
  }

  /** Round trip of the base formatter: reading a formatted diagnostic
      gives back its file name (or the program tag), its line, its column
      when the line is known, the severity-tagged message, and, exactly
      when the stream is given and the line known, the source line with
      the caret after `col` characters. */
  lemma ReadFormatError(ty: Option<string>, stream: Option<TextStream>,
                        filename: Option<string>, line: U32, col: U32, msg: string)
    requires Readable(ty, stream, filename, line, msg)
    ensures Read(FormatError(ty, stream, filename, line, col, msg)) == Some(Reading(
              if filename.Some? then filename.value else ProgramTag,
              line,
              if line != 0 then col else 0,
              SeverityTag(ty) + msg,
              if HasExcerpt(stream, line)
              then Some(SourceExcerpt(stream.value.getLine(line), if col == 0 then 1 else col))
              else None))
  {
    if HasExcerpt(stream, line) {
      ReadFormatErrorExcerpt(ty, stream, filename, line, col, msg);
    } else {
      ReadFormatErrorPlain(ty, stream, filename, line, col, msg);
    }
  }

  /** Round trip of the script front end: the script's path comes back as
      the file, with no line, column or excerpt. */
  lemma ReadFormatScript(ty: Option<string>, script: Script, msg: string)
    requires ':' !in script.path && '\n' !in script.path
    requires ty.Some? ==> '\n' !in ty.value
    requires '\n' !in msg
    ensures Read(FormatScript(ty, script, msg)) == Some(Reading(script.path, 0, 0, SeverityTag(ty) + msg, None))
  {
    ReadFormatError(ty, None, Some(script.path), 0, 0, msg);
  }

  /** The pieces of a token diagnostic hold no separator: the stream name
      has no colon and no newline, and neither the severity, the message
      nor (when an excerpt is written) the source line has a newline. */
  predicate TokenReadable(ty: Option<string>, info: TokenInfo, msg: string) {
    && ':' !in info.stream.streamName && '\n' !in info.stream.streamName
    && (ty.Some? ==> '\n' !in ty.value)
    && '\n' !in msg
    && (var line := ToU32(info.stream.lineColFromOffset(info.begin).line);
        info.begin != info.end && line != 0 ==> '\n' !in info.stream.getLine(line))
  }

  /** What a token diagnostic reads back as: the stream's name as the
      file; no line for an empty span; for a non-empty one the line and
      column of its first offset and, when that line is known, the excerpt
      of that line. */
  function TokenReading(ty: Option<string>, info: TokenInfo, msg: string): Reading {
    var at := info.stream.lineColFromOffset(info.begin);
    var line := ToU32(at.line);
    var col := ToU32(at.col);
    var located := info.begin != info.end && line != 0;
    Reading(
      info.stream.streamName,
      if info.begin != info.end then line else 0,
      if located then col else 0,
      SeverityTag(ty) + msg,
      if located
      then Some(SourceExcerpt(info.stream.getLine(line), if col == 0 then 1 else col))
      else None)
  }

  /** Round trip of the token front end. */
  lemma ReadFormatToken(ty: Option<string>, info: TokenInfo, msg: string)
    requires TokenReadable(ty, info, msg)
    ensures Read(FormatToken(ty, info, msg)) == Some(TokenReading(ty, info, msg))
  {
    if info.begin == info.end {
      ReadFormatError(ty, None, Some(info.stream.streamName), 0, 0, msg);
    } else {
      ReadFormatError(ty, Some(info.stream), Some(info.stream.streamName), SpanLine(info), SpanCol(info), msg);
    }
  }

  /** Round trip of the syntax-tree front end while the context node's
      stream is alive: the diagnostic reads back as the token diagnostic
      of that node's span, so it is located at the first offset of the
      chosen node's token. */
  lemma ReadFormatNodeLive(ty: Option<string>, node: SyntaxTree, msg: string)
    requires ContextNode(node).tokenStream.Some?
    requires TokenReadable(ty, NodeSpan(node), msg)
    ensures Read(FormatNode(ty, node, msg)) == Some(TokenReading(ty, NodeSpan(node), msg))
    ensures NodeSpan(node).stream == ContextNode(node).tokenStream.value
    ensures NodeSpan(node).begin == ContextNode(node).token.begin
    ensures NodeSpan(node).end == ContextNode(node).token.end
  {
    ReadFormatToken(ty, NodeSpan(node), msg);
  }

  /** The internal error's pieces hold no newline. */
  lemma InternalErrorReadable()
    ensures Readable(Some(InternalErrorType), None, None, 0, InternalErrorMessage)
  {
    assert '\n' !in "context->" && '\n' !in "token_stream() " && '\n' !in "== nullptr "
           && '\n' !in "during " && '\n' !in "format_error";
    assert '\n' !in InternalErrorType;
  }

  /** A syntax-tree diagnostic whose context node has lost its stream
      reads back as the program's internal error, with no location. */
  lemma ReadFormatNodeExpired(ty: Option<string>, node: SyntaxTree, msg: string)
    requires ContextNode(node).tokenStream.None?
    ensures Read(FormatNode(ty, node, msg)) == Some(Reading(
              ProgramTag, 0, 0, InternalErrorType + ": " + InternalErrorMessage, None))
  {
    InternalErrorReadable();
    ReadFormatError(Some(InternalErrorType), None, None, 0, 0, InternalErrorMessage);
  }
}

=== FILE: text.dfy ===
/** Character-level helpers on `string` (= `seq<char>`) used by the
    diagnostic formatter and by the reader that inverts it. */
module Text {
  import opened Base

  predicate IsDigit(c: char) {
    '0' <= c <= '9'
  }

  predicate AllDigits(s: string) {
    forall i :: 0 <= i < |s| ==> IsDigit(s[i])
  }

  /** `n` blanks. */
  function Spaces(n: nat): (s: string)
    ensures |s| == n
    ensures forall i :: 0 <= i < n ==> s[i] == ' '
  {
    if n == 0 then [] else Spaces(n - 1) + " "
  }

  /** fmt's right alignment `{:>{width}}`: the text is padded on the left
      with blanks up to `width` characters and is never truncated. */
  function AlignRight(s: string, width: nat): (r: string)
    ensures |r| == if width > |s| then width else |s|
    ensures r[|r| - |s|..] == s
    ensures forall i :: 0 <= i < |r| - |s| ==> r[i] == ' '
  {
    if width > |s| then Spaces(width - |s|) + s else s
  }

  /** Position of the first occurrence of `c` in `s`, if any. */
  function IndexOf(s: string, c: char): (r: Option<nat>)
    ensures r.None? <==> c !in s
    ensures r.Some? ==> r.value < |s| && s[r.value] == c && c !in s[..r.value]
  {
    if |s| == 0 then None
    else if s[0] == c then Some(0)
    else match IndexOf(s[1..], c)
      case None => None
      case Some(i) => Some(i + 1)
  }

  /** The first occurrence of `c` in `a + [c] + b` is the one after `a`
      when `a` does not hold `c`. */
  lemma IndexOfAfter(a: string, c: char, b: string)
    requires c !in a
    ensures IndexOf(a + [c] + b, c) == Some(|a|)
  {
    var s := a + [c] + b;
    assert s[|a|] == c;
    assert s[..|a|] == a;
  }

  /** The pieces of `s` between occurrences of `sep` (there is always at
      least one piece, and no piece holds `sep`). */
  function Split(s: string, sep: char): (r: seq<string>)
    ensures |r| >= 1
    ensures forall i :: 0 <= i < |r| ==> sep !in r[i]
    decreases |s|
  {
    match IndexOf(s, sep)
    case None => [s]
    case Some(i) => [s[..i]] + Split(s[i + 1..], sep)
  }

  /** Splitting `a + [sep] + b` cuts off `a` as its first piece. */
  lemma SplitAfter(a: string, sep: char, b: string)
    requires sep !in a
    ensures Split(a + [sep] + b, sep) == [a] + Split(b, sep)
  {
    var s := a + [sep] + b;
    IndexOfAfter(a, sep, b);
    assert s[..|a|] == a;
    assert s[|a| + 1..] == b;
  }

  /** Three separator-free pieces joined by two separators split back
      into those pieces. */
  lemma SplitThree(a: string, b: string, c: string, sep: char)
    requires sep !in a && sep !in b && sep !in c
    ensures Split(a + [sep] + (b + [sep] + c), sep) == [a, b, c]
  {
    SplitAfter(a, sep, b + [sep] + c);
    SplitAfter(b, sep, c);
    assert Split(c, sep) == [c];
  }

  /** Length of the run of decimal digits at the start of `s`. */
  function DigitRun(s: string): (k: nat)
    ensures k <= |s|
    ensures AllDigits(s[..k])
    ensures k < |s| ==> !IsDigit(s[k])
  {
    if |s| == 0 || !IsDigit(s[0]) then 0
    else
      var k := 1 + DigitRun(s[1..]);
      assert s[..k] == [s[0]] + s[1..][..k - 1];
      k
  }

  /** The digit run of `d + rest` is exactly `d` when `rest` does not
      start with a digit. */
  lemma {:induction false} DigitRunOf(d: string, rest: string)
    requires AllDigits(d)
    requires |rest| > 0 && !IsDigit(rest[0])
    ensures DigitRun(d + rest) == |d|
    decreases |d|
  {
    if |d| > 0 {
      assert (d + rest)[1..] == d[1..] + rest;
      DigitRunOf(d[1..], rest);
    } else {
      assert d + rest == rest;
    }
  }
}
